=== FILE: README.md ===
# simple-template-engine, modelled in Dafny

The system is a Fastify middleware (`middleware/template_engine.js`). It serves
HTML pages from markup files under `./src`. A markup file may hold a
`<script use="server">` block. On the first request for a file, the hook
does the following:

1. It parses the markup and takes the text of the first server script.
2. It writes that text to a temporary module named by `uuidv4()`, imports
   the module, and unlinks it.
3. It compiles the markup, with the server scripts that are children of
   the root removed (nested ones stay), as a Handlebars template.
4. It stores the pair (template, script) in a page cache keyed by the
   source path.
5. It runs the script on the request. A `Redirect` result becomes a
   redirect; any other result is the data the template is rendered with.

Later requests for the same file are served from the cache when caching is
on.

The model has five modules:

- `Paths`: resolving a request URL to its source file (`./src`, plus the URL
  before its first `?`, plus `index.html` for a directory path).
- `Uuid`: `uuidv4()`. Each `x` and `y` of the template
  `xxxxxxxx-xxxx-4xxx-yxxx-xxxxxxxxxxxx` takes the next draw of a stream of
  random nibbles. The `y` keeps the low two bits of its draw and sets the
  high bit.
- `JsValues`: the JavaScript values that cross into and out of a page's
  script, and the `Redirect` class.
- `Documents`: the parsed document as the list of the root's children,
  each a tree of nodes with its start tag, the nodes inside it and its end
  tag.
  - `querySelectorAll('script[use="server"]')` is `ServerScripts`: the
    flagged nodes among `AllNodes`, every node in document order.
  - The `removeChild` loop is the method `RemoveAll`, proved against the
    function `Without`.
  - `toString()` is `Serialize`, and `innerHTML` is `InnerHTML`.
- `TemplateEngine`: the hook.
  - `Engine` is a class that holds the page cache (`cachePages`, a map
    from source path to page) and the `useCaching` flag.
  - Its method `OnRequest` takes the request and an `Outcomes` record that
    says how every foreign step turns out: read, parse, the random draws,
    write, import, unlink, and compile. It returns the response, how many
    times `done()` was called, and the file-system and loader calls it
    made. It updates the cache in place.
  - `OnRequest` and the methods it calls (`ServeMiss`, `ServeScript`,
    `ServeLoaded`, one per callback of the source) are each proved equal to
    a pure specification (`Handle`, `MissReply`, `ScriptReply`,
    `LoadedReply`).
- `HookLaws`: what one request promises, proved over `Handle`.
  - Every failure (read, parse, write, import, unlink) answers status 500
    with its own message, leaves the cache unchanged and calls `done()`
    once.
  - A failed import leaves the temporary module behind.
  - With caching off, the cache is neither read nor written.
  - With caching on, a successful request stores its page, so the same
    request again is a cache hit with the same response. This holds for pages that redirect
    too, because the page is stored before its script runs.
  - The compiled template contains no server script that is a child of the
    root. A server script nested inside another element is found by the
    query, but `removeChild` on the root does not remove it
    (`middleware/template_engine.js:68`, `:84`), so it stays in the template
    (`NestedScriptsSurvive`).
  - Two requests share a temporary module name only when their draws agree
    on every `x` and, modulo 4, on the `y`.

The static branch (a document without a server script) sends the page but
never calls `done()`. The model follows the code
(`middleware/template_engine.js:75-81`): `DoneCalledOnceExceptStatic` proves
`done()` is called once on every other path and zero times on this one.
Every other branch calls `done()` after its reply
(`middleware/template_engine.js:47, 52, 59, 71, 93, 102, 113, 118, 123`);
this one does not.

`TempPath(name)` is `./<name>.js`, the file written and unlinked.
`TempModule(name)` is `../<name>.js`, the specifier imported. `TmpName(io)` is
the `uuidv4()` name drawn from `io.draws`.

The specification functions of `TemplateEngine` have no row of their own
below: each method that is proved equal to one of them has a row, and the
`HookLaws` lemmas state what they promise. They follow these lines of
`middleware/template_engine.js`:

- `Respond`: running a page's script and answering with a redirect or a
  rendered page, at 44-52 and 110-118.
- `Handle`: the cache lookup at 38-54, then the miss.
- `MissReply`: the `readFile` callback at 56-88.
- `ScriptReply`: the `writeFile` callback and the import at 90-97 and
  120-124.
- `LoadedReply`: the `unlink` callback at 98-118.

## Model

| member | source | states |
|---|---|---|
| Paths.PathPart | middleware/template_engine.js:38 | `split("?")[0]` is a prefix of the URL with no `?` in it, cut exactly at the first `?` (or the whole URL when it has none) |
| Paths.CharAt | middleware/template_engine.js:39 | `charAt` gives the character at an index in range and the empty string out of range (so for `length - 1` of an empty path) |
| Paths.SourcePath | middleware/template_engine.js:38-39 | the source path is `./src` + the path part, + `index.html` exactly when the path part is non-empty and ends in `/`; it starts with `./src` and contains no `?` |
| Paths.PathPartStopsAtQuery | middleware/template_engine.js:38 | once a URL prefix contains a `?`, the rest of the URL does not change the path part |
| Paths.SameSourceUpToQuery | middleware/template_engine.js:38-39 | two URLs that agree up to and including a `?` resolve to the same source path |
| Paths.PathPartOfQuery | middleware/template_engine.js:38 | a `?`-free path is its own path part, and appending `?query` to it does not change the path part |
| Paths.QueryIgnored | middleware/template_engine.js:38-39 | `path?query` and `path` resolve to the same source path |
| Paths.EmptyUrlIsWebroot | middleware/template_engine.js:39 | the empty URL resolves to `./src` itself, without `index.html` |
| Uuid.ToHex | middleware/template_engine.js:10 | `v.toString(16)` of a nibble is a lowercase hex digit |
| Uuid.ToHexInjective | middleware/template_engine.js:10 | distinct nibbles give distinct hex digits, and back |
| Uuid.VariantNibble | middleware/template_engine.js:9 | keeping the low two bits of the draw and setting bit 3 gives `8 + r % 4`, a value in 8..11 |
| Uuid.Fill | middleware/template_engine.js:8-11 | the `replace` keeps the template's length |
| Uuid.FillAt | middleware/template_engine.js:8-11 | the `replace` keeps every character other than `x`/`y`, writes a hex digit for `x` and `8`, `9`, `a` or `b` for `y` |
| Uuid.FillCollision | middleware/template_engine.js:8-11 | two draw streams fill a template identically exactly when they agree on every `x` draw and, modulo 4, on every `y` draw |
| Uuid.TemplateShape | middleware/template_engine.js:8 | the template is 36 characters long, with dashes only at 8, 13, 18 and 23, `4` at 14, `y` at 19, and `x` or `y` at every other index |
| Uuid.UuidAt | middleware/template_engine.js:7-11 | the character at each index of a `uuidv4()` result, index by index |
| Uuid.Uuidv4 | middleware/template_engine.js:7-12 | `uuidv4()` returns a string of the template's length |
| Uuid.UuidShape | middleware/template_engine.js:7-11 | every `uuidv4()` result has 36 characters, `-` exactly at 8, 13, 18, 23, `4` at 14, one of `8`, `9`, `a`, `b` at 19 and a lowercase hex digit at every other index |
| Uuid.UuidCollision | middleware/template_engine.js:7-11 | two `uuidv4()` calls give the same name exactly when their draws agree on every `x` and, modulo 4, on the `y` |
| JsValues.NewRedirect | middleware/template_engine.js:14-21 | `new Redirect(u)` has `url == u` when `u` is a string and `url == ""` otherwise |
| JsValues.NewRedirectOfUrl | middleware/template_engine.js:18-21 | every redirect is the one built from its own URL |
| Documents.AllNodesMembers | middleware/template_engine.js:68 | a node of the document is one of the root's children or a node inside one of them, and every such node is one |
| Documents.Flagged | middleware/template_engine.js:68 | the query's filter keeps at most as many nodes as it is given |
| Documents.ServerScripts | middleware/template_engine.js:68 | the query finds at most as many nodes as the document has, at any depth |
| Documents.QueryFindsFlagged | middleware/template_engine.js:68 | exactly the server-script nodes are found, and the other nodes are exactly the unflagged ones |
| Documents.FirstFoundIsFirstFlagged | middleware/template_engine.js:68-87 | the first node found is the first server script in document order: every node before it is unflagged |
| Documents.QueryPartitions | middleware/template_engine.js:68 | found and unflagged nodes together are all the nodes as a multiset: none is lost or counted twice |
| Documents.NothingFlaggedNothingFound | middleware/template_engine.js:68 | a document with no server-script node gives the query nothing to find |
| Documents.Without | middleware/template_engine.js:83-85 | a child of the root stays exactly when it is not among the removed nodes; a removed child goes with everything inside it |
| Documents.RemoveChild | middleware/template_engine.js:84 | `removeChild(node)` on the root removes exactly that child, with everything inside it, keeps every other child and never adds one |
| Documents.WithoutNothing | middleware/template_engine.js:83 | removing no nodes leaves the document as it is (the loop before its first step) |
| Documents.RemoveChildExtends | middleware/template_engine.js:83-85 | one more `removeChild` after a batch of removals is removing the longer batch |
| Documents.RemoveAll | middleware/template_engine.js:83-85 | the loop leaves the root's children that are not among the found nodes, in order |
| Documents.WithoutIgnoresAbsent | middleware/template_engine.js:83-85 | removing nodes that are not children of the root changes nothing |
| Documents.RemovingFlaggedLeavesUnflagged | middleware/template_engine.js:83-85 | removing the flagged children of the root leaves exactly the unflagged ones, in order |
| Documents.RemovingFoundLeavesUnflagged | middleware/template_engine.js:68-85 | removing what the query found leaves exactly the root's children that are not server scripts, in order |
| Documents.NestedScriptsSurvive | middleware/template_engine.js:68-85 | after the removal the query finds exactly the server scripts that sit inside a child of the root that is not itself one |
| Documents.NoNestedScriptNoneSurvives | middleware/template_engine.js:68-85 | when no server script sits inside another node, none is left after the removal |
| Documents.Serialize | middleware/template_engine.js:76 | the empty list of children serialises to the empty string |
| Documents.SerializeAppend | middleware/template_engine.js:76 | serialising two runs of siblings one after the other is concatenating their serialisations |
| Documents.NestedScriptFound | middleware/template_engine.js:68 | the query finds a server script inside `<head>` |
| Documents.NestedScriptLeaks | middleware/template_engine.js:68-85 | that script is not removed, and the serialised markup after the removal is `<head>`, the script's markup, `</head>` |
| Documents.RemoveEverywhere | middleware/template_engine.js:83-85 | the intended removal: each child kept is a child that was not removed, with the removal applied to the nodes inside it |
| Documents.RemoveEverywhereLeavesUnflagged | middleware/template_engine.js:68-85 | removing everywhere a list holding every flagged node leaves no flagged node at any depth |
| Documents.StrippingEverywhereLeavesNoScript | middleware/template_engine.js:68-85 | removing the query's result at every depth leaves a document in which the query finds nothing |
| Documents.NestedScriptStrippedEverywhere | middleware/template_engine.js:68-85 | removing the script inside `<head>` everywhere leaves the markup `<head></head>` |
| TemplateEngine.StaticPage | middleware/template_engine.js:77 | the page of a document without a server script renders the serialised document whatever its data, and its script returns `{}` |
| TemplateEngine.Engine.constructor | middleware/template_engine.js:28-34 | the hook starts with an empty cache and the given `useCaching` flag |
| TemplateEngine.Engine.OnRequest | middleware/template_engine.js:36-127 | the hook's response, `done()` count, calls and new cache are those of `Handle` on the old cache |
| TemplateEngine.Engine.ServeMiss | middleware/template_engine.js:56-88 | the `readFile` callback (read and parse errors, static branch, script removal) follows `MissReply` |
| TemplateEngine.Engine.ServeScript | middleware/template_engine.js:90-124 | the `writeFile` callback and the import follow `ScriptReply` |
| TemplateEngine.Engine.ServeLoaded | middleware/template_engine.js:98-118 | the `unlink` callback, which compiles, stores and runs the page, follows `LoadedReply` |
| HookLaws.ScriptBranch | middleware/template_engine.js:83-90 | a document with server scripts is read, its server scripts among the root's children are removed, and it goes on to write the first script's text under the `uuidv4()` name |
| HookLaws.ScriptWriteFails | middleware/template_engine.js:90-95 | a failed write answers 500 with the write message, `done()` once, the cache unchanged, after the single write call |
| HookLaws.ScriptImportFails | middleware/template_engine.js:97-124 | a failed import answers 500 with the import message, `done()` once, the cache unchanged, after the write and the import |
| HookLaws.ScriptUnlinkFails | middleware/template_engine.js:97-104 | a failed unlink answers 500 with the unlink message, `done()` once, the cache unchanged, after write, import and unlink |
| HookLaws.ScriptCompiles | middleware/template_engine.js:106-118 | after write, import and unlink succeed, the page compiled from the stripped document with the module's export is stored and run, `done()` once |
| HookLaws.ScriptOutcome | middleware/template_engine.js:90-124 | past the parse, `done()` is called once; the answer is not an error, and the page is stored, exactly when write, import and unlink all succeed; otherwise 500 and the cache unchanged |
| HookLaws.ScriptReplyIgnoresCache | middleware/template_engine.js:90-124 | past the cache lookup, response, `done()` count and calls do not depend on the cache, and with caching off the cache is unchanged |
| HookLaws.HitServesCachedPage | middleware/template_engine.js:40-53 | a hit makes no call, keeps the cache, calls `done()` once, redirects on a `Redirect` and otherwise renders the page's template with the script's result |
| HookLaws.CachingOffLeavesCache | middleware/template_engine.js:42-108 | with caching off the cache is unchanged by any request and the source file is always read first |
| HookLaws.CachingOffIgnoresCache | middleware/template_engine.js:42-56 | with caching off two different caches give the same response, `done()` count and calls |
| HookLaws.ReadFailureAnswers500 | middleware/template_engine.js:56-61 | a failed read answers 500 `X Server Internal Error`, `done()` once, the cache unchanged, only the read was made |
| HookLaws.ParseFailureAnswers500 | middleware/template_engine.js:66-73 | a parse error answers 500 with the error's text, `done()` once, the cache unchanged |
| HookLaws.StaticDocumentIsSentAndStored | middleware/template_engine.js:75-81 | a document without a server script is sent as serialised, stored when caching is on, with `done()` never called and no call but the read |
| HookLaws.WriteFailureAnswers500 | middleware/template_engine.js:90-95 | a failed write answers 500 `Error, Failed to write server js tmp`, `done()` once, the cache unchanged |
| HookLaws.WriteFailureCalls | middleware/template_engine.js:87-95 | the write is of the first server script's text to `./<uuid>.js`, and nothing is imported after a failed write |
| HookLaws.ImportFailureAnswers500 | middleware/template_engine.js:120-124 | a failed import answers 500 `Error, Failed to import js tmp`, `done()` once, the cache unchanged |
| HookLaws.ImportFailureCalls | middleware/template_engine.js:90-124 | after a failed import the temporary module was written and imported but never unlinked |
| HookLaws.UnlinkFailureAnswers500 | middleware/template_engine.js:98-104 | a failed unlink answers 500 `Error, Failed to remove js tmp`, `done()` once, the cache unchanged (the loaded page is discarded) |
| HookLaws.UnlinkFailureCalls | middleware/template_engine.js:90-104 | a failed unlink comes after the read, the write, the import and the unlink of the same module |
| HookLaws.CompiledPageIsStoredAndRun | middleware/template_engine.js:106-118 | the template is compiled from the document with the server scripts among the root's children removed (nested ones stay); the page is stored (when caching is on) before its script runs, so redirecting pages are stored too; a `Redirect` gives a redirect, other data a render; `done()` once |
| HookLaws.CompiledPageCalls | middleware/template_engine.js:88-98 | a compiled page costs exactly one read, write, import and unlink, in that order, all of the same temporary module |
| HookLaws.DoneCalledOnceExceptStatic | middleware/template_engine.js:36-127 | `done()` is called once on every path except the static branch, where it is never called |
| HookLaws.CacheWrittenOnlyOnSuccess | middleware/template_engine.js:75-108 | the cache changes exactly when caching is on, the page was not cached and the answer is not an error; then only the request's source path is added |
| HookLaws.SecondRequestIsServedFromCache | middleware/template_engine.js:40-53 | after a request answered without an error and with caching on, the same request is a hit with the same response, no call and one `done()` |
| HookLaws.TempModulesCollideOnlyOnSameDigits | middleware/template_engine.js:88-90 | two requests write the same temporary file exactly when their draws agree on every `x` and, modulo 4, on the `y` |

## Left out

- File I/O (`fs.readFile`, `fs.writeFile`, `fs.unlink`): each is an outcome in `Outcomes` (the text read, success or failure). The hook's calls are recorded as a trace of `Call` values.
- Dynamic `import()` and the execution of page scripts: the import is an outcome that yields the module's default export, a function from request to result. The model does not tie that function to the script text that was written.
- Exceptions thrown by a page's script, by `Handlebars.compile` or by a rendering template are not modelled: such a script or template is a total function here.
- Handlebars: `Handlebars.compile` is the uninterpreted function `io.compile`. The template it returns is an uninterpreted function of the data.
- node-html-parser: `parse` is the uninterpreted `io.parse`. Its error message stands for `error.toString()`.
- Node kinds and attributes: a node is its start tag, the nodes inside it and its end tag, and a text node keeps its text as its start tag. Whether a node matches `script[use="server"]` is its `serverScript` flag. The parser's rules (void elements, raw-text elements) are not modelled.
- `Math.random`: the draws of `uuidv4()` are a stream `nat -> Nibble` given as input, with one draw per `x` or `y`. Floating point is not modelled.
- Uuid.Uuidv4: the model does not state that only the first 31 draws are used. It only states, through `UuidCollision`, which draws the name depends on.
- Concurrency: requests are handled one at a time, each to completion. Interleaved requests for the same uncached path, and the last-write-wins race on the cache, are not modelled.
- Fastify objects: the `reply` object is reduced to the `Response` value. The `text/html; charset=utf-8` header, the redirect status code and the hook registration (`fastify.addHook`) are not modelled.
- The cache's scope: in the source, `cachePages` is a single Map shared by every `templateEngine` registration. In the model each `Engine` object holds its own cache.
- The `useCaching = true` default of `templateEngine`: the constructor takes the flag explicitly.
- `console.error` logging of unlink and import errors is not modelled.
- Documents.Serialize: its own contract states only the empty case. `SerializeAppend` states how it composes. The tags themselves are inputs.
- `server.js` (process startup and listening) is not part of this model.

## Findings

| source | as written | input that shows it | evidently intended | confidence | as-written member | corrected member |
|---|---|---|---|---|---|---|
| middleware/template_engine.js:68-85 | `querySelectorAll` finds server scripts at any depth, but `html.removeChild` on the root removes only its direct children, so a nested server script stays in the markup compiled at :106 and is sent to the client | a document whose `<head>` holds a `<script use="server">` | every server script the query finds is removed from the document whose markup is compiled | high (not executed) | Documents.NestedScriptLeaks | Documents.StrippingEverywhereLeavesNoScript |

The hook model (`Handle`, `Engine`) keeps the removal as written, so that it
follows the code. `RemoveEverywhere` is the corrected removal and stands on
its own.

=== FILE: documents.dfy ===
/** The parsed markup document as the hook sees it: the root's children,
    each a tree of nodes, some flagged as `<script use="server">` elements.
    The hook queries the flagged nodes at any depth, removes each of them
    from the root's children and serialises what is left. */
module Documents {

  /** One node of the document. `id` stands for the node object's
      identity, which `removeChild` compares by; `open` and `close` are its
      start and end tags (a text node has its text as `open`, no children
      and an empty `close`), `children` the nodes inside it. */
  datatype Node = Node(id: nat, serverScript: bool, open: string, children: seq<Node>, close: string)

  /** The nodes of `doc` and every node inside them, in document order
      (each node before the nodes inside it). */
  function AllNodes(doc: seq<Node>): seq<Node>
  {
    if doc == [] then []
    else [doc[0]] + AllNodes(doc[0].children) + AllNodes(doc[1..])
  }

  /** A node of the document is one of the root's children or a node
      inside one of them. */
  lemma {:induction false} AllNodesMembers(doc: seq<Node>)
    ensures forall n :: n in AllNodes(doc) <==> exists t :: t in doc && (n == t || n in AllNodes(t.children))
  {
    if doc != [] {
      AllNodesMembers(doc[1..]);
      assert doc == [doc[0]] + doc[1..];
      forall n | n in AllNodes(doc)
        ensures exists t :: t in doc && (n == t || n in AllNodes(t.children))
      {
        if n == doc[0] || n in AllNodes(doc[0].children) {
          assert doc[0] in doc;
        } else {
          assert n in AllNodes(doc[1..]);
          var t :| t in doc[1..] && (n == t || n in AllNodes(t.children));
          assert t in doc;
        }
      }
    }
  }

  /** The flagged nodes of a list, in its order. */
  function Flagged(nodes: seq<Node>): (found: seq<Node>)
    ensures |found| <= |nodes|
  {
    if nodes == [] then []
    else if nodes[0].serverScript then [nodes[0]] + Flagged(nodes[1..])
    else Flagged(nodes[1..])
  }

  /** `html.querySelectorAll('script[use="server"]')`: the flagged nodes at
      any depth, in document order. */
  function ServerScripts(doc: seq<Node>): (found: seq<Node>)
    ensures |found| <= |AllNodes(doc)|
  {
    Flagged(AllNodes(doc))
  }

  /** The nodes of a list that are not flagged, in its order. */
  function Unflagged(nodes: seq<Node>): (rest: seq<Node>)
  {
    if nodes == [] then []
    else if nodes[0].serverScript then Unflagged(nodes[1..])
    else [nodes[0]] + Unflagged(nodes[1..])
  }

  /** Exactly the flagged nodes are found, and exactly the others are
      unflagged. */
  lemma {:induction false} QueryFindsFlagged(nodes: seq<Node>)
    ensures forall n :: n in Flagged(nodes) <==> n in nodes && n.serverScript
    ensures forall n :: n in Unflagged(nodes) <==> n in nodes && !n.serverScript
  {
    if nodes != [] {
      QueryFindsFlagged(nodes[1..]);
      assert nodes == [nodes[0]] + nodes[1..];
    }
  }

  /** Every node is either found or left unflagged, never both and never
      lost. */
  lemma {:induction false} QueryPartitions(nodes: seq<Node>)
    ensures multiset(Flagged(nodes)) + multiset(Unflagged(nodes)) == multiset(nodes)
  {
    if nodes != [] {
      QueryPartitions(nodes[1..]);
      assert nodes == [nodes[0]] + nodes[1..];
    }
  }

  /** The first node found is the first flagged node of the list: every
      node before it is unflagged. */
  lemma {:induction false} FirstFoundIsFirstFlagged(nodes: seq<Node>)
    requires Flagged(nodes) != []
    ensures exists k :: 0 <= k < |nodes| && nodes[k] == Flagged(nodes)[0] && nodes[k].serverScript
                        && forall j :: 0 <= j < k ==> !nodes[j].serverScript
  {
    if !nodes[0].serverScript {
      FirstFoundIsFirstFlagged(nodes[1..]);
      var k :| 0 <= k < |nodes[1..]| && nodes[1..][k] == Flagged(nodes[1..])[0] && nodes[1..][k].serverScript
               && forall j :: 0 <= j < k ==> !nodes[1..][j].serverScript;
      assert nodes[k + 1] == Flagged(nodes)[0];
      assert forall j :: 0 <= j < k + 1 ==> !nodes[j].serverScript by {
        forall j | 0 <= j < k + 1
          ensures !nodes[j].serverScript
        {
          if j > 0 {
            assert nodes[j] == nodes[1..][j - 1];
          }
        }
      }
    }
  }

  /** A list with no flagged node has nothing to find. */
  lemma {:induction false} NothingFlaggedNothingFound(nodes: seq<Node>)
    requires forall k :: 0 <= k < |nodes| ==> !nodes[k].serverScript
    ensures Flagged(nodes) == []
  {
    if nodes != [] {
      NothingFlaggedNothingFound(nodes[1..]);
    }
  }

  /** The root's children that are not among `removed`, in order; a
      removed child goes with every node inside it. */
  function Without(doc: seq<Node>, removed: seq<Node>): (rest: seq<Node>)
    ensures forall n :: n in rest <==> n in doc && n !in removed
  {
    if doc == [] then []
    else if doc[0] in removed then Without(doc[1..], removed)
    else [doc[0]] + Without(doc[1..], removed)
  }

  /** `html.removeChild(node)`: the root keeps every child that is not
      that node; a node inside a child is not a child and stays where it
      is. */
  function RemoveChild(doc: seq<Node>, node: Node): (rest: seq<Node>)
    ensures forall n :: n in rest <==> n in doc && n != node
    ensures |rest| <= |doc|
  {
    if doc == [] then []
    else if doc[0] == node then RemoveChild(doc[1..], node)
    else [doc[0]] + RemoveChild(doc[1..], node)
  }

  lemma {:induction false} WithoutNothing(doc: seq<Node>)
    ensures Without(doc, []) == doc
  {
    if doc != [] {
      WithoutNothing(doc[1..]);
    }
  }

  /** Removing one more node after a batch is removing the longer batch. */
  lemma {:induction false} RemoveChildExtends(doc: seq<Node>, removed: seq<Node>, node: Node)
    ensures RemoveChild(Without(doc, removed), node) == Without(doc, removed + [node])
  {
    if doc != [] {
      RemoveChildExtends(doc[1..], removed, node);
      var tail := Without(doc[1..], removed);
      assert doc[0] in removed + [node] <==> doc[0] in removed || doc[0] == node;
      assert Without(doc, removed + [node])
          == (if doc[0] in removed + [node] then [] else [doc[0]]) + Without(doc[1..], removed + [node]);
      if doc[0] !in removed {
        assert Without(doc, removed) == [doc[0]] + tail;
        assert ([doc[0]] + tail)[1..] == tail;
        assert RemoveChild([doc[0]] + tail, node)
            == (if doc[0] == node then [] else [doc[0]]) + RemoveChild(tail, node);
      } else {
        assert Without(doc, removed) == tail;
      }
    }
  }

  /** The loop `for (i ...) html.removeChild(jsArray[i])`: removes every
      node of `found` that is a child of the root. */
  method RemoveAll(doc: seq<Node>, found: seq<Node>) returns (rest: seq<Node>)
    ensures rest == Without(doc, found)
  {
    rest := doc;
    WithoutNothing(doc);
    for i := 0 to |found|
      invariant rest == Without(doc, found[..i])
    {
      RemoveChildExtends(doc, found[..i], found[i]);
      assert found[..i + 1] == found[..i] + [found[i]];
      rest := RemoveChild(rest, found[i]);
    }
    assert found[..|found|] == found;
  }

  /** Only the removed nodes that occur in `doc` matter. */
  lemma {:induction false} WithoutIgnoresAbsent(doc: seq<Node>, r1: seq<Node>, r2: seq<Node>)
    requires forall n :: n in doc ==> (n in r1 <==> n in r2)
    ensures Without(doc, r1) == Without(doc, r2)
  {
    if doc != [] {
      WithoutIgnoresAbsent(doc[1..], r1, r2);
    }
  }

  /** Removing the flagged children leaves the unflagged ones, in order. */
  lemma {:induction false} RemovingFlaggedLeavesUnflagged(doc: seq<Node>)
    ensures Without(doc, Flagged(doc)) == Unflagged(doc)
  {
    if doc != [] {
      var rest := doc[1..];
      RemovingFlaggedLeavesUnflagged(rest);
      QueryFindsFlagged(doc);
      QueryFindsFlagged(rest);
      WithoutIgnoresAbsent(rest, Flagged(doc), Flagged(rest));
      if doc[0].serverScript {
        assert Without(doc, Flagged(doc)) == Without(rest, Flagged(doc));
      } else {
        assert Without(doc, Flagged(doc)) == [doc[0]] + Without(rest, Flagged(doc));
      }
    }
  }

  /** Removing from the root what the query found leaves exactly the
      root's children that are not server scripts, in their original
      order. */
  lemma RemovingFoundLeavesUnflagged(doc: seq<Node>)
    ensures Without(doc, ServerScripts(doc)) == Unflagged(doc)
  {
    AllNodesMembers(doc);
    QueryFindsFlagged(AllNodes(doc));
    QueryFindsFlagged(doc);
    WithoutIgnoresAbsent(doc, ServerScripts(doc), Flagged(doc));
    RemovingFlaggedLeavesUnflagged(doc);
  }

  /** After the removal the query finds exactly the server scripts that
      sit inside a child of the root that is not one: those stay in the
      document. */
  lemma NestedScriptsSurvive(doc: seq<Node>)
    ensures forall n :: n in ServerScripts(Unflagged(doc)) <==>
                        n.serverScript && exists t :: t in doc && !t.serverScript && n in AllNodes(t.children)
  {
    QueryFindsFlagged(doc);
    QueryFindsFlagged(AllNodes(Unflagged(doc)));
    AllNodesMembers(Unflagged(doc));
  }

  /** When no server script sits inside another node, removing the found
      nodes leaves no server script for the query to find. */
  lemma NoNestedScriptNoneSurvives(doc: seq<Node>)
    requires forall t :: t in doc ==> ServerScripts(t.children) == []
    ensures ServerScripts(Unflagged(doc)) == []
  {
    var left := AllNodes(Unflagged(doc));
    NestedScriptsSurvive(doc);
    QueryFindsFlagged(left);
    forall t | t in doc
      ensures forall n :: n in AllNodes(t.children) ==> !n.serverScript
    {
      QueryFindsFlagged(AllNodes(t.children));
    }
    assert forall k :: 0 <= k < |left| ==> left[k] in left;
    NothingFlaggedNothingFound(left);
  }

  /** `html.toString()`: each child's start tag, the serialised nodes
      inside it and its end tag, concatenated. */
  function Serialize(doc: seq<Node>): (text: string)
    ensures doc == [] ==> text == ""
  {
    if doc == [] then ""
    else doc[0].open + Serialize(doc[0].children) + doc[0].close + Serialize(doc[1..])
  }

  /** `node.innerHTML`: the serialised nodes inside `n`. */
  function InnerHTML(n: Node): string {
    Serialize(n.children)
  }

  /** Serialising two runs of siblings one after the other is
      serialising each. */
  lemma {:induction false} SerializeAppend(a: seq<Node>, b: seq<Node>)
    ensures Serialize(a + b) == Serialize(a) + Serialize(b)
  {
    if a != [] {
      SerializeAppend(a[1..], b);
      assert (a + b)[0] == a[0] && (a + b)[1..] == a[1..] + b;
      var head := a[0].open + Serialize(a[0].children) + a[0].close;
      assert Serialize(a) == head + Serialize(a[1..]);
      calc {
        Serialize(a + b);
        head + Serialize(a[1..] + b);
        head + (Serialize(a[1..]) + Serialize(b));
        (head + Serialize(a[1..])) + Serialize(b);
      }
    } else {
      assert a + b == b;
    }
  }

  /** The removal the hook evidently intends: every removed node goes,
      whatever its depth, with every node inside it. */
  function RemoveEverywhere(doc: seq<Node>, removed: seq<Node>): (rest: seq<Node>)
    ensures forall k :: 0 <= k < |rest| ==>
              exists j :: 0 <= j < |doc| && doc[j] !in removed
                          && rest[k] == doc[j].(children := RemoveEverywhere(doc[j].children, removed))
  {
    if doc == [] then []
    else if doc[0] in removed then RemoveEverywhere(doc[1..], removed)
    else [doc[0].(children := RemoveEverywhere(doc[0].children, removed))] + RemoveEverywhere(doc[1..], removed)
  }

  /** Removing everywhere every flagged node leaves no flagged node. */
  lemma {:induction false} RemoveEverywhereLeavesUnflagged(doc: seq<Node>, removed: seq<Node>)
    requires forall n :: n in AllNodes(doc) && n.serverScript ==> n in removed
    ensures forall n :: n in AllNodes(RemoveEverywhere(doc, removed)) ==> !n.serverScript
  {
    if doc != [] {
      RemoveEverywhereLeavesUnflagged(doc[1..], removed);
      if doc[0] !in removed {
        RemoveEverywhereLeavesUnflagged(doc[0].children, removed);
        var kept := doc[0].(children := RemoveEverywhere(doc[0].children, removed));
        assert RemoveEverywhere(doc, removed) == [kept] + RemoveEverywhere(doc[1..], removed);
        assert AllNodes(RemoveEverywhere(doc, removed))
            == [kept] + AllNodes(RemoveEverywhere(doc[0].children, removed)) + AllNodes(RemoveEverywhere(doc[1..], removed));
      }
    }
  }

  /** Removing everywhere what the query found leaves no server script for
      the query to find. */
  lemma StrippingEverywhereLeavesNoScript(doc: seq<Node>)
    ensures ServerScripts(RemoveEverywhere(doc, ServerScripts(doc))) == []
  {
    var left := AllNodes(RemoveEverywhere(doc, ServerScripts(doc)));
    QueryFindsFlagged(AllNodes(doc));
    RemoveEverywhereLeavesUnflagged(doc, ServerScripts(doc));
    assert forall k :: 0 <= k < |left| ==> left[k] in left;
    NothingFlaggedNothingFound(left);
  }

  /** A `<head>` holding a server script whose text is `x`. */
  const ScriptText := Node(2, false, "x", [], "")
  const HeadScript := Node(1, true, "<script use=\"server\">", [ScriptText], "</script>")
  const Head := Node(0, false, "<head>", [HeadScript], "</head>")

  /** The query finds the server script inside `<head>`. */
  lemma NestedScriptFound()
    ensures ServerScripts([Head]) == [HeadScript]
  {
    assert AllNodes([ScriptText]) == [ScriptText];
    assert AllNodes([HeadScript]) == [HeadScript, ScriptText];
    assert AllNodes([Head]) == [Head, HeadScript, ScriptText];
    assert [Head, HeadScript, ScriptText][1..] == [HeadScript, ScriptText];
    assert [HeadScript, ScriptText][1..] == [ScriptText];
    assert Flagged([ScriptText]) == [];
    assert Flagged([HeadScript, ScriptText]) == [HeadScript];
  }

  /** A server script inside `<head>` is found by the query but stays in
      the document the removal leaves, and so in its serialised markup. */
  lemma NestedScriptLeaks()
    ensures ServerScripts([Head]) == [HeadScript]
    ensures Without([Head], ServerScripts([Head])) == [Head]
    ensures Serialize(Without([Head], ServerScripts([Head]))) == "<head>" + Serialize([HeadScript]) + "</head>"
    ensures Serialize([HeadScript]) == "<script use=\"server\">" + "x" + "</script>"
  {
    NestedScriptFound();
    assert Without([Head], [HeadScript]) == [Head];
    assert Serialize([ScriptText]) == "x";
    assert [ScriptText][1..] == [] && [HeadScript][1..] == [] && [Head][1..] == [];
    assert Serialize([ScriptText]) == "x";
    assert Serialize([HeadScript]) == "<script use=\"server\">" + "x" + "</script>";
    assert Serialize([Head]) == "<head>" + Serialize([HeadScript]) + "</head>";
  }

  /** Removing the found script everywhere takes it out of the markup. */
  lemma NestedScriptStrippedEverywhere()
    ensures Serialize(RemoveEverywhere([Head], ServerScripts([Head]))) == "<head></head>"
  {
    NestedScriptLeaks();
    assert RemoveEverywhere([HeadScript], [HeadScript]) == [];
    assert RemoveEverywhere([Head], [HeadScript]) == [Head.(children := [])];
  }
}

=== FILE: engine.dfy ===
/** The `onRequest` hook of the template engine and its page cache.

    Every foreign step the hook takes (reading the source file, parsing it,
    writing the extracted script to a temporary module, importing that
    module, unlinking it, compiling the template) is an input: an
    `Outcomes` record says how each of them turns out for one request. The
    hook answers with one response, an updated cache, the number of times
    it called `done()`, and the list of file-system and import calls it
    made. */
module TemplateEngine {
  import opened JsValues
  import opened Documents
  import Paths
  import Uuid

  /** The request object; `details` stands for everything besides the URL
      that a page's script may read. */
  datatype Request = Request(originalUrl: string, details: JsValue)

  /** A render function, as `Handlebars.compile` returns it. */
  type Template = JsValue -> string

  /** A page's script: the default export of its server-script module. */
  type Script = Request -> ScriptResult

  /** A cache entry: `{ template, js }`. */
  datatype Page = Page(template: Template, js: Script)

  /** What the hook sends: a page with content type `text/html`, a
      redirect, or a status-500 error with a text body. */
  datatype Response =
    | Html(body: string)
    | RedirectTo(url: string)
    | Error500(message: string)

  datatype ReadOutcome = ReadFailed | ReadOk(text: string)

  /** `parse(data)` followed by the query for server scripts: either throws
      (`message` is the error's `toString()`) or yields the document's
      nodes. */
  datatype ParseOutcome = ParseFailed(message: string) | Parsed(nodes: seq<Node>)

  datatype ImportOutcome = ImportFailed | Imported(entry: Script)

  /** How the foreign steps of one request turn out. `draws(k)` is the
      result of the `k`-th `Math.random() * 16 | 0` that `uuidv4` makes. */
  datatype Outcomes = Outcomes(
    read: ReadOutcome,
    parse: string -> ParseOutcome,
    draws: nat -> Uuid.Nibble,
    writeOk: bool,
    importResult: ImportOutcome,
    unlinkOk: bool,
    compile: string -> Template)

  /** A call the hook makes into the file system or the module loader. */
  datatype Call =
    | ReadFile(path: string)
    | WriteFile(path: string, content: string)
    | Import(specifier: string)
    | Unlink(path: string)

  /** Everything one request produces. */
  datatype Reply = Reply(response: Response, cache: map<string, Page>, doneCalls: nat, calls: seq<Call>)

  const ReadErrorMessage: string := "X Server Internal Error"
  const WriteErrorMessage: string := "Error, Failed to write server js tmp"
  const UnlinkErrorMessage: string := "Error, Failed to remove js tmp"
  const ImportErrorMessage: string := "Error, Failed to import js tmp"

  /** The entry for a document without a server script: its template
      ignores its data and gives back the serialised document, its script
      returns `{}`. */
  function StaticPage(rawHtml: string): (p: Page)
    ensures forall v :: p.template(v) == rawHtml
    ensures forall req :: p.js(req) == Data(EmptyObject)
  {
    Page(_ => rawHtml, _ => Data(EmptyObject))
  }

  /** Running a page for a request: a `Redirect` result becomes a
      redirect, any other result is rendered by the page's template. */
  function Respond(page: Page, req: Request): Response {
    match page.js(req)
    case Redirected(target) => RedirectTo(target.url)
    case Data(v) => Html(page.template(v))
  }

  /** The file the extracted script is written to and unlinked from, for
      the temporary module name `name`. */
  function TempPath(name: string): string {
    "./" + name + ".js"
  }

  /** The specifier the extracted script is imported by. */
  function TempModule(name: string): string {
    "../" + name + ".js"
  }

  function Source(req: Request): string {
    Paths.SourcePath(req.originalUrl)
  }

  predicate IsHit(cache: map<string, Page>, useCaching: bool, req: Request) {
    useCaching && Source(req) in cache
  }

  /** The request gets as far as a parsed document. */
  predicate ParsesTo(cache: map<string, Page>, useCaching: bool, req: Request, io: Outcomes, doc: seq<Node>) {
    !IsHit(cache, useCaching, req) && io.read.ReadOk? && io.parse(io.read.text) == Parsed(doc)
  }

  /** The request ends in the static branch: the document has no server
      script. */
  predicate IsStaticMiss(cache: map<string, Page>, useCaching: bool, req: Request, io: Outcomes) {
    !IsHit(cache, useCaching, req) && io.read.ReadOk? && io.parse(io.read.text).Parsed?
    && ServerScripts(io.parse(io.read.text).nodes) == []
  }

  /** The cache after storing `page` under `path`, when caching is on. */
  function Store(cache: map<string, Page>, useCaching: bool, path: string, page: Page): map<string, Page> {
    if useCaching then cache[path := page] else cache
  }

  /** The hook, for one request, from the cache it finds. */
  function Handle(cache: map<string, Page>, useCaching: bool, req: Request, io: Outcomes): (r: Reply)
  {
    if IsHit(cache, useCaching, req) then Reply(Respond(cache[Source(req)], req), cache, 1, [])
    else MissReply(cache, useCaching, req, io)
  }

  /** A cache miss: the `readFile` callback and what follows it. */
  function MissReply(cache: map<string, Page>, useCaching: bool, req: Request, io: Outcomes): (r: Reply)
  {
    var src := Source(req);
    var read := [ReadFile(src)];
    match io.read
    case ReadFailed => Reply(Error500(ReadErrorMessage), cache, 1, read)
    case ReadOk(text) =>
      match io.parse(text)
      case ParseFailed(message) => Reply(Error500(message), cache, 1, read)
      case Parsed(doc) =>
        var found := ServerScripts(doc);
        if |found| == 0 then
          var rawHtml := Serialize(doc);
          Reply(Html(rawHtml), Store(cache, useCaching, src, StaticPage(rawHtml)), 0, read)
        else
          var r := ScriptReply(cache, useCaching, req, io, Without(doc, found), InnerHTML(found[0]), Uuid.Uuidv4(io.draws));
          r.(calls := read + r.calls)
  }

  /** A document with a server script, once the server scripts that are
      children of the root are removed (nested ones stay), giving
      `stripped`; `script` is the first server script's text and `name` the
      temporary module's name: the `writeFile` of the script, its callback
      and the `import()` of the temporary module. */
  function ScriptReply(cache: map<string, Page>, useCaching: bool, req: Request, io: Outcomes,
                       stripped: seq<Node>, script: string, name: string): (r: Reply)
  {
    var written := [WriteFile(TempPath(name), script)];
    if !io.writeOk then
      Reply(Error500(WriteErrorMessage), cache, 1, written)
    else
      var imported := written + [Import(TempModule(name))];
      match io.importResult
      case ImportFailed => Reply(Error500(ImportErrorMessage), cache, 1, imported)
      case Imported(entry) =>
        var r := LoadedReply(cache, useCaching, req, io, stripped, entry, name);
        r.(calls := imported + r.calls)
  }

  /** The module is loaded and `entry` is its default export: the `unlink`
      callback, which compiles the template, stores the page and runs it. */
  function LoadedReply(cache: map<string, Page>, useCaching: bool, req: Request, io: Outcomes,
                       stripped: seq<Node>, entry: Script, name: string): (r: Reply)
  {
    var unlinked := [Unlink(TempPath(name))];
    if !io.unlinkOk then
      Reply(Error500(UnlinkErrorMessage), cache, 1, unlinked)
    else
      var page := Page(io.compile(Serialize(stripped)), entry);
      Reply(Respond(page, req), Store(cache, useCaching, Source(req), page), 1, unlinked)
  }

  /** The hook and the page cache it shares between requests. */
  class Engine {
    var cachePages: map<string, Page>
    const useCaching: bool

    /** `templateEngine(fastify, useCaching)` with the cache as the module
        loads it: empty. */
    constructor(useCaching: bool)
      ensures this.useCaching == useCaching
      ensures cachePages == map[]
    {
      this.useCaching := useCaching;
      cachePages := map[];
    }

    /** The `onRequest` hook for one request. */
    method OnRequest(request: Request, io: Outcomes) returns (response: Response, doneCalls: nat, calls: seq<Call>)
        modifies this
      ensures Reply(response, cachePages, doneCalls, calls) == Handle(old(cachePages), useCaching, request, io)
    {
      var srcPath := Paths.SourcePath(request.originalUrl);

      if srcPath in cachePages && useCaching {
        var page := cachePages[srcPath];
        var data := page.js(request);
        if data.Redirected? {
          response := RedirectTo(data.target.url);
          doneCalls, calls := 1, [];
          return;
        }
        response := Html(page.template(data.value));
        doneCalls, calls := 1, [];
        return;
      }

      response, doneCalls, calls := ServeMiss(request, io, srcPath);
    }

    /** `fs.readFile(srcPath, ...)` and its callback. */
    method ServeMiss(request: Request, io: Outcomes, srcPath: string) returns (response: Response, doneCalls: nat, calls: seq<Call>)
        requires srcPath == Source(request) && !IsHit(cachePages, useCaching, request)
      modifies this
      ensures Reply(response, cachePages, doneCalls, calls) == MissReply(old(cachePages), useCaching, request, io)
    {
      calls := [ReadFile(srcPath)];
      if io.read.ReadFailed? {
        response := Error500(ReadErrorMessage);
        doneCalls := 1;
        return;
      }

      var parsed := io.parse(io.read.text);
      if parsed.ParseFailed? {
        response := Error500(parsed.message);
        doneCalls := 1;
        return;
      }
      var html := parsed.nodes;
      var jsArray := ServerScripts(html);

      if |jsArray| <= 0 {
        var rawHtml := Serialize(html);
        var page := StaticPage(rawHtml);
        if useCaching {
          cachePages := cachePages[srcPath := page];
        }
        // `page.template()`: called without an argument, and `done()` is not called
        response := Html(page.template(Undefined));
        doneCalls := 0;
        return;
      }

      html := RemoveAll(html, jsArray);
      var jsRaw := jsArray[0];
      var jsTmpFilename := Uuid.Uuidv4(io.draws);
      var more;
      response, doneCalls, more := ServeScript(request, io, srcPath, html, InnerHTML(jsRaw), jsTmpFilename);
      calls := calls + more;
    }

    /** `fs.writeFile` of the extracted script to a temporary module and
        its callback, which imports that module. */
    method ServeScript(request: Request, io: Outcomes, srcPath: string, html: seq<Node>, script: string,
                       jsTmpFilename: string)
      returns (response: Response, doneCalls: nat, calls: seq<Call>)
      requires srcPath == Source(request)
      modifies this
      ensures Reply(response, cachePages, doneCalls, calls)
           == ScriptReply(old(cachePages), useCaching, request, io, html, script, jsTmpFilename)
    {
      calls := [WriteFile("./" + jsTmpFilename + ".js", script)];
      if !io.writeOk {
        response := Error500(WriteErrorMessage);
        doneCalls := 1;
        return;
      }

      calls := calls + [Import("../" + jsTmpFilename + ".js")];
      if io.importResult.ImportFailed? {
        response := Error500(ImportErrorMessage);
        doneCalls := 1;
        return;
      }

      var more;
      response, doneCalls, more := ServeLoaded(request, io, srcPath, html, io.importResult.entry, jsTmpFilename);
      calls := calls + more;
    }

    /** The `then` of the import: unlinks the temporary module, and in the
        `unlink` callback compiles the template, stores the page and runs
        the script. */
    method ServeLoaded(request: Request, io: Outcomes, srcPath: string, html: seq<Node>, entry: Script,
                       jsTmpFilename: string)
      returns (response: Response, doneCalls: nat, calls: seq<Call>)
      requires srcPath == Source(request)
      modifies this
      ensures Reply(response, cachePages, doneCalls, calls)
           == LoadedReply(old(cachePages), useCaching, request, io, html, entry, jsTmpFilename)
    {
      calls := [Unlink("./" + jsTmpFilename + ".js")];
      if !io.unlinkOk {
        response := Error500(UnlinkErrorMessage);
        doneCalls := 1;
        return;
      }

      var template := io.compile(Serialize(html));
      var page := Page(template, entry);
      if useCaching {
        cachePages := cachePages[srcPath := page];
      }

      var data := page.js(request);
      if data.Redirected? {
        response := RedirectTo(data.target.url);
        doneCalls := 1;
        return;
      }
      response := Html(template(data.value));
      doneCalls := 1;

    }
  }
}

=== FILE: hook_laws.dfy ===
/** What one run of the `onRequest` hook promises, stated over the
    specification `TemplateEngine.Handle` that `Engine.OnRequest` is proved
    to follow: which branch answers, with which response, how often
    `done()` is called, which calls reach the file system and the module
    loader, and how the page cache changes. */
module HookLaws {
  import opened JsValues
  import opened Documents
  import opened TemplateEngine
  import Uuid

  /** The name of the temporary module for the draws of `io`. */
  function TmpName(io: Outcomes): string {
    Uuid.Uuidv4(io.draws)
  }

  /** A document with server scripts goes on to the `writeFile` of the
      first script's text under a fresh name, with the server scripts
      that are children of the root removed (nested ones stay), after the
      one read. */
  lemma ScriptBranch(cache: map<string, Page>, useCaching: bool, req: Request, io: Outcomes, doc: seq<Node>)
    requires ParsesTo(cache, useCaching, req, io, doc) && ServerScripts(doc) != []
    ensures var r := ScriptReply(cache, useCaching, req, io, Without(doc, ServerScripts(doc)),
                                 InnerHTML(ServerScripts(doc)[0]), TmpName(io));
            Handle(cache, useCaching, req, io) == r.(calls := [ReadFile(Source(req))] + r.calls)
  {
    assert io.read.ReadOk? && io.parse(io.read.text) == Parsed(doc) && |ServerScripts(doc)| != 0;
    assert Handle(cache, useCaching, req, io) == MissReply(cache, useCaching, req, io);
  }

  /** Prepending to a short display gives the longer display. */
  lemma PrependToOne<T>(a: T, b: T)
    ensures [a] + [b] == [a, b]
  {
  }

  lemma PrependToTwo<T>(a: T, b: T, c: T)
    ensures [a] + [b, c] == [a, b, c]
  {
  }

  lemma PrependToThree<T>(a: T, b: T, c: T, d: T)
    ensures [a] + [b, c, d] == [a, b, c, d]
  {
  }

  /** The `writeFile` callback when the write fails. */
  lemma ScriptWriteFails(cache: map<string, Page>, useCaching: bool, req: Request, io: Outcomes,
                         stripped: seq<Node>, script: string, name: string)
    requires !io.writeOk
    ensures ScriptReply(cache, useCaching, req, io, stripped, script, name)
         == Reply(Error500("Error, Failed to write server js tmp"), cache, 1, [WriteFile(TempPath(name), script)])
  {
  }

  /** The `catch` of the import, after a successful write. */
  lemma ScriptImportFails(cache: map<string, Page>, useCaching: bool, req: Request, io: Outcomes,
                          stripped: seq<Node>, script: string, name: string)
    requires io.writeOk && io.importResult.ImportFailed?
    ensures ScriptReply(cache, useCaching, req, io, stripped, script, name)
         == Reply(Error500("Error, Failed to import js tmp"), cache, 1, [WriteFile(TempPath(name), script), Import(TempModule(name))])
  {
  }

  /** The `unlink` callback when the unlink fails, after a successful
      write and import. */
  lemma ScriptUnlinkFails(cache: map<string, Page>, useCaching: bool, req: Request, io: Outcomes,
                          stripped: seq<Node>, script: string, name: string)
    requires io.writeOk && io.importResult.Imported? && !io.unlinkOk
    ensures ScriptReply(cache, useCaching, req, io, stripped, script, name)
         == Reply(Error500("Error, Failed to remove js tmp"), cache, 1,
                  [WriteFile(TempPath(name), script), Import(TempModule(name)), Unlink(TempPath(name))])
  {
    assert [WriteFile(TempPath(name), script)] + [Import(TempModule(name))] + [Unlink(TempPath(name))]
        == [WriteFile(TempPath(name), script), Import(TempModule(name)), Unlink(TempPath(name))];
  }

  /** The `unlink` callback after a successful write, import and unlink:
      the page is compiled from `stripped`, stored and run. */
  lemma ScriptCompiles(cache: map<string, Page>, useCaching: bool, req: Request, io: Outcomes,
                       stripped: seq<Node>, script: string, name: string, entry: Script)
    requires io.writeOk && io.importResult == Imported(entry) && io.unlinkOk
    ensures var r := ScriptReply(cache, useCaching, req, io, stripped, script, name);
            var page := Page(io.compile(Serialize(stripped)), entry);
            && r.response == Respond(page, req)
            && r.cache == Store(cache, useCaching, Source(req), page)
            && r.doneCalls == 1
            && r.calls == [WriteFile(TempPath(name), script), Import(TempModule(name)), Unlink(TempPath(name))]
  {
    assert [WriteFile(TempPath(name), script)] + [Import(TempModule(name))] + [Unlink(TempPath(name))]
        == [WriteFile(TempPath(name), script), Import(TempModule(name)), Unlink(TempPath(name))];
  }

  /** Every path past the parse of a document with server scripts calls
      `done()` once; it answers without an error, and stores the compiled
      page, exactly when the write, the import and the unlink all succeed,
      and otherwise answers status 500 with the cache unchanged. */
  lemma ScriptOutcome(cache: map<string, Page>, useCaching: bool, req: Request, io: Outcomes,
                      stripped: seq<Node>, script: string, name: string)
    ensures var r := ScriptReply(cache, useCaching, req, io, stripped, script, name);
            && r.doneCalls == 1
            && (io.writeOk && io.importResult.Imported? && io.unlinkOk ==>
                  && !r.response.Error500?
                  && r.cache == Store(cache, useCaching, Source(req), Page(io.compile(Serialize(stripped)), io.importResult.entry)))
            && (!(io.writeOk && io.importResult.Imported? && io.unlinkOk) ==> r.response.Error500? && r.cache == cache)
  {
    if io.writeOk && io.importResult.Imported? && io.unlinkOk {
      var page := Page(io.compile(Serialize(stripped)), io.importResult.entry);
      assert !Respond(page, req).Error500?;
    }
  }

  /** Past the cache lookup, the cache only receives the new page: the
      response, the `done()` count and the calls do not depend on it, and
      with caching off it comes back unchanged. */
  lemma ScriptReplyIgnoresCache(c1: map<string, Page>, c2: map<string, Page>, useCaching: bool, req: Request, io: Outcomes,
                                stripped: seq<Node>, script: string, name: string)
    ensures var r1, r2 := ScriptReply(c1, useCaching, req, io, stripped, script, name),
                          ScriptReply(c2, useCaching, req, io, stripped, script, name);
            && r1.response == r2.response && r1.doneCalls == r2.doneCalls && r1.calls == r2.calls
            && (!useCaching ==> r1.cache == c1)
  {
  }

  /** A cache hit runs the cached page and nothing else: no file is read,
      written or unlinked, the cache stays as it is and `done()` is called
      once. A `Redirect` from the page's script becomes a redirect to its
      URL; any other result is rendered by the page's template. */
  lemma HitServesCachedPage(cache: map<string, Page>, useCaching: bool, req: Request, io: Outcomes)
    requires IsHit(cache, useCaching, req)
    ensures var r := Handle(cache, useCaching, req, io);
            var page := cache[Source(req)];
            && r.cache == cache && r.doneCalls == 1 && r.calls == []
            && (page.js(req).Redirected? ==> r.response == RedirectTo(page.js(req).target.url))
            && (page.js(req).Data? ==> r.response == Html(page.template(page.js(req).value)))
  {
  }

  /** With caching off the cache is never written, and the source file is
      always read first. */
  lemma {:induction false} CachingOffLeavesCache(cache: map<string, Page>, req: Request, io: Outcomes)
    ensures Handle(cache, false, req, io).cache == cache
    ensures |Handle(cache, false, req, io).calls| > 0 && Handle(cache, false, req, io).calls[0] == ReadFile(Source(req))
  {
    if io.read.ReadOk? && io.parse(io.read.text).Parsed? {
      var doc := io.parse(io.read.text).nodes;
      if ServerScripts(doc) != [] {
        ScriptBranch(cache, false, req, io, doc);
        ScriptOutcome(cache, false, req, io, Without(doc, ServerScripts(doc)), InnerHTML(ServerScripts(doc)[0]), TmpName(io));
      }
    }
  }

  /** With caching off the cache is never consulted: two caches give the
      same response, `done()` count and calls. */
  lemma {:induction false} CachingOffIgnoresCache(c1: map<string, Page>, c2: map<string, Page>, req: Request, io: Outcomes)
    ensures Handle(c1, false, req, io).response == Handle(c2, false, req, io).response
    ensures Handle(c1, false, req, io).doneCalls == Handle(c2, false, req, io).doneCalls
    ensures Handle(c1, false, req, io).calls == Handle(c2, false, req, io).calls
  {
    if io.read.ReadOk? && io.parse(io.read.text).Parsed? {
      var doc := io.parse(io.read.text).nodes;
      if ServerScripts(doc) != [] {
        ScriptBranch(c1, false, req, io, doc);
        ScriptBranch(c2, false, req, io, doc);
        ScriptReplyIgnoresCache(c1, c2, false, req, io, Without(doc, ServerScripts(doc)),
                                InnerHTML(ServerScripts(doc)[0]), TmpName(io));
      }
    }
  }

  /** The source file cannot be read: status 500 with the fixed message,
      `done()` once, the cache unchanged, and the read is the only call. */
  lemma ReadFailureAnswers500(cache: map<string, Page>, useCaching: bool, req: Request, io: Outcomes)
    requires !IsHit(cache, useCaching, req) && io.read.ReadFailed?
    ensures Handle(cache, useCaching, req, io)
         == Reply(Error500("X Server Internal Error"), cache, 1, [ReadFile(Source(req))])
  {
  }

  /** The markup cannot be parsed: status 500 with the parser's message,
      `done()` once, the cache unchanged. */
  lemma ParseFailureAnswers500(cache: map<string, Page>, useCaching: bool, req: Request, io: Outcomes)
    requires !IsHit(cache, useCaching, req) && io.read.ReadOk? && io.parse(io.read.text).ParseFailed?
    ensures Handle(cache, useCaching, req, io)
         == Reply(Error500(io.parse(io.read.text).message), cache, 1, [ReadFile(Source(req))])
  {
  }

  /** A document without a server script is sent as it was serialised,
      stored (when caching is on) as a page whose template returns that
      text whatever its data, and `done()` is never called. */
  lemma StaticDocumentIsSentAndStored(cache: map<string, Page>, useCaching: bool, req: Request, io: Outcomes, doc: seq<Node>)
    requires ParsesTo(cache, useCaching, req, io, doc) && ServerScripts(doc) == []
    ensures var r := Handle(cache, useCaching, req, io);
            && r.response == Html(Serialize(doc))
            && r.cache == Store(cache, useCaching, Source(req), StaticPage(Serialize(doc)))
            && r.doneCalls == 0
            && r.calls == [ReadFile(Source(req))]
  {
  }

  /** The temporary module cannot be written: status 500 with the fixed
      message, `done()` once, the cache unchanged. */
  lemma WriteFailureAnswers500(cache: map<string, Page>, useCaching: bool, req: Request, io: Outcomes, doc: seq<Node>)
    requires ParsesTo(cache, useCaching, req, io, doc) && ServerScripts(doc) != [] && !io.writeOk
    ensures Handle(cache, useCaching, req, io).response == Error500("Error, Failed to write server js tmp")
    ensures Handle(cache, useCaching, req, io).cache == cache
    ensures Handle(cache, useCaching, req, io).doneCalls == 1
  {
    ScriptBranch(cache, useCaching, req, io, doc);
    ScriptWriteFails(cache, useCaching, req, io, Without(doc, ServerScripts(doc)), InnerHTML(ServerScripts(doc)[0]), TmpName(io));
  }

  /** When the write fails, the hook has read the source and tried to
      write the first server script's text (and only that one) to the
      temporary module, and imports nothing. */
  lemma WriteFailureCalls(cache: map<string, Page>, useCaching: bool, req: Request, io: Outcomes, doc: seq<Node>)
    requires ParsesTo(cache, useCaching, req, io, doc) && ServerScripts(doc) != [] && !io.writeOk
    ensures Handle(cache, useCaching, req, io).calls
         == [ReadFile(Source(req)), WriteFile(TempPath(TmpName(io)), InnerHTML(ServerScripts(doc)[0]))]
  {
    ScriptBranch(cache, useCaching, req, io, doc);
    ScriptWriteFails(cache, useCaching, req, io, Without(doc, ServerScripts(doc)), InnerHTML(ServerScripts(doc)[0]), TmpName(io));
    PrependToOne(ReadFile(Source(req)), WriteFile(TempPath(TmpName(io)), InnerHTML(ServerScripts(doc)[0])));
  }

  /** The temporary module is written but cannot be imported: status 500
      with the fixed message, `done()` once, the cache unchanged. */
  lemma ImportFailureAnswers500(cache: map<string, Page>, useCaching: bool, req: Request, io: Outcomes, doc: seq<Node>)
    requires ParsesTo(cache, useCaching, req, io, doc) && ServerScripts(doc) != []
    requires io.writeOk && io.importResult.ImportFailed?
    ensures Handle(cache, useCaching, req, io).response == Error500("Error, Failed to import js tmp")
    ensures Handle(cache, useCaching, req, io).cache == cache
    ensures Handle(cache, useCaching, req, io).doneCalls == 1
  {
    ScriptBranch(cache, useCaching, req, io, doc);
    ScriptImportFails(cache, useCaching, req, io, Without(doc, ServerScripts(doc)), InnerHTML(ServerScripts(doc)[0]), TmpName(io));
  }

  /** When the import fails, the temporary module was written and
      imported and is never unlinked: it is left behind. */
  lemma ImportFailureCalls(cache: map<string, Page>, useCaching: bool, req: Request, io: Outcomes, doc: seq<Node>)
    requires ParsesTo(cache, useCaching, req, io, doc) && ServerScripts(doc) != []
    requires io.writeOk && io.importResult.ImportFailed?
    ensures Handle(cache, useCaching, req, io).calls
         == [ReadFile(Source(req)), WriteFile(TempPath(TmpName(io)), InnerHTML(ServerScripts(doc)[0])),
             Import(TempModule(TmpName(io)))]
  {
    ScriptBranch(cache, useCaching, req, io, doc);
    ScriptImportFails(cache, useCaching, req, io, Without(doc, ServerScripts(doc)), InnerHTML(ServerScripts(doc)[0]), TmpName(io));
    PrependToTwo(ReadFile(Source(req)), WriteFile(TempPath(TmpName(io)), InnerHTML(ServerScripts(doc)[0])),
                 Import(TempModule(TmpName(io))));
  }

  /** The temporary module is imported but cannot be unlinked: status 500
      with the fixed message, `done()` once, the cache unchanged. */
  lemma UnlinkFailureAnswers500(cache: map<string, Page>, useCaching: bool, req: Request, io: Outcomes, doc: seq<Node>)
    requires ParsesTo(cache, useCaching, req, io, doc) && ServerScripts(doc) != []
    requires io.writeOk && io.importResult.Imported? && !io.unlinkOk
    ensures Handle(cache, useCaching, req, io).response == Error500("Error, Failed to remove js tmp")
    ensures Handle(cache, useCaching, req, io).cache == cache
    ensures Handle(cache, useCaching, req, io).doneCalls == 1
  {
    ScriptBranch(cache, useCaching, req, io, doc);
    ScriptUnlinkFails(cache, useCaching, req, io, Without(doc, ServerScripts(doc)), InnerHTML(ServerScripts(doc)[0]), TmpName(io));
  }

  /** When the unlink fails, the temporary module was written, imported
      and unlinked. */
  lemma UnlinkFailureCalls(cache: map<string, Page>, useCaching: bool, req: Request, io: Outcomes, doc: seq<Node>)
    requires ParsesTo(cache, useCaching, req, io, doc) && ServerScripts(doc) != []
    requires io.writeOk && io.importResult.Imported? && !io.unlinkOk
    ensures Handle(cache, useCaching, req, io).calls
         == [ReadFile(Source(req)), WriteFile(TempPath(TmpName(io)), InnerHTML(ServerScripts(doc)[0])),
             Import(TempModule(TmpName(io))), Unlink(TempPath(TmpName(io)))]
  {
    ScriptBranch(cache, useCaching, req, io, doc);
    ScriptUnlinkFails(cache, useCaching, req, io, Without(doc, ServerScripts(doc)), InnerHTML(ServerScripts(doc)[0]), TmpName(io));
    var name := TmpName(io);
    PrependToThree(ReadFile(Source(req)), WriteFile(TempPath(name), InnerHTML(ServerScripts(doc)[0])),
                   Import(TempModule(name)), Unlink(TempPath(name)));
  }

  /** A document with server scripts whose module is written, imported and
      unlinked: the template is compiled from the document with the
      server scripts that are children of the root removed (nested ones
      stay), the page (template and the module's default
      export) is stored before its script runs, so a redirecting page is
      stored too; a `Redirect` becomes a redirect, any other result is
      rendered; `done()` is called once. */
  lemma {:induction false} CompiledPageIsStoredAndRun(cache: map<string, Page>, useCaching: bool, req: Request, io: Outcomes,
                                                      doc: seq<Node>, entry: Script)
    requires ParsesTo(cache, useCaching, req, io, doc) && ServerScripts(doc) != []
    requires io.writeOk && io.importResult == Imported(entry) && io.unlinkOk
    ensures var template := io.compile(Serialize(Unflagged(doc)));
            Handle(cache, useCaching, req, io).cache == Store(cache, useCaching, Source(req), Page(template, entry))
    ensures Handle(cache, useCaching, req, io).doneCalls == 1
    ensures entry(req).Redirected? ==> Handle(cache, useCaching, req, io).response == RedirectTo(entry(req).target.url)
    ensures entry(req).Data? ==>
              Handle(cache, useCaching, req, io).response == Html(io.compile(Serialize(Unflagged(doc)))(entry(req).value))
  {
    ScriptBranch(cache, useCaching, req, io, doc);
    RemovingFoundLeavesUnflagged(doc);
    ScriptCompiles(cache, useCaching, req, io, Without(doc, ServerScripts(doc)), InnerHTML(ServerScripts(doc)[0]), TmpName(io), entry);
  }

  /** A compiled page is served after exactly one read, write, import and
      unlink, in that order, all of the same temporary module. */
  lemma CompiledPageCalls(cache: map<string, Page>, useCaching: bool, req: Request, io: Outcomes,
                            doc: seq<Node>, entry: Script)
    requires ParsesTo(cache, useCaching, req, io, doc) && ServerScripts(doc) != []
    requires io.writeOk && io.importResult == Imported(entry) && io.unlinkOk
    ensures Handle(cache, useCaching, req, io).calls
         == [ReadFile(Source(req)), WriteFile(TempPath(TmpName(io)), InnerHTML(ServerScripts(doc)[0])),
             Import(TempModule(TmpName(io))), Unlink(TempPath(TmpName(io)))]
  {
    ScriptBranch(cache, useCaching, req, io, doc);
    ScriptCompiles(cache, useCaching, req, io, Without(doc, ServerScripts(doc)), InnerHTML(ServerScripts(doc)[0]), TmpName(io), entry);
    var name := TmpName(io);
    PrependToThree(ReadFile(Source(req)), WriteFile(TempPath(name), InnerHTML(ServerScripts(doc)[0])),
                   Import(TempModule(name)), Unlink(TempPath(name)));
  }

  /** `done()` is called exactly once on every path but the static one,
      where it is never called. */
  lemma DoneCalledOnceExceptStatic(cache: map<string, Page>, useCaching: bool, req: Request, io: Outcomes)
    ensures Handle(cache, useCaching, req, io).doneCalls == if IsStaticMiss(cache, useCaching, req, io) then 0 else 1
  {
    if !IsHit(cache, useCaching, req) && io.read.ReadOk? && io.parse(io.read.text).Parsed? {
      var doc := io.parse(io.read.text).nodes;
      if ServerScripts(doc) != [] {
        ScriptBranch(cache, useCaching, req, io, doc);
        ScriptOutcome(cache, useCaching, req, io, Without(doc, ServerScripts(doc)), InnerHTML(ServerScripts(doc)[0]), TmpName(io));
      }
    }
  }

  /** The cache changes exactly when caching is on, the page was not
      cached yet and the request was answered without an error (the static
      branch or a full write, import and unlink); and then only the entry
      of the request's source path is added. */
  lemma CacheWrittenOnlyOnSuccess(cache: map<string, Page>, useCaching: bool, req: Request, io: Outcomes)
    ensures var r := Handle(cache, useCaching, req, io);
            r.cache != cache <==> useCaching && !IsHit(cache, useCaching, req) && !r.response.Error500?
    ensures var r := Handle(cache, useCaching, req, io);
            r.cache == cache || (Source(req) !in cache && Source(req) in r.cache && r.cache == cache[Source(req) := r.cache[Source(req)]])
  {
    if IsHit(cache, useCaching, req) {
      assert !Respond(cache[Source(req)], req).Error500?;
    } else if io.read.ReadOk? && io.parse(io.read.text).Parsed? {
      var doc := io.parse(io.read.text).nodes;
      if ServerScripts(doc) != [] {
        ScriptBranch(cache, useCaching, req, io, doc);
        ScriptOutcome(cache, useCaching, req, io, Without(doc, ServerScripts(doc)), InnerHTML(ServerScripts(doc)[0]), TmpName(io));
      }
    }
  }

  /** With caching on, a request answered without an error leaves its page
      in the cache: the same request again is a hit, makes no call, gives
      the same response and calls `done()` once. */
  lemma {:induction false} SecondRequestIsServedFromCache(cache: map<string, Page>, req: Request, io: Outcomes, io2: Outcomes)
    requires !Handle(cache, true, req, io).response.Error500?
    ensures var r := Handle(cache, true, req, io);
            && IsHit(r.cache, true, req)
            && Handle(r.cache, true, req, io2) == Reply(r.response, r.cache, 1, [])
  {
    var src := Source(req);
    var r := Handle(cache, true, req, io);
    if !IsHit(cache, true, req) {
      var doc := io.parse(io.read.text).nodes;
      if ServerScripts(doc) == [] {
        var raw := Serialize(doc);
        assert r.cache[src] == StaticPage(raw);
        assert Respond(StaticPage(raw), req) == Html(raw);
      } else {
        var page := Page(io.compile(Serialize(Without(doc, ServerScripts(doc)))), io.importResult.entry);
        assert r.cache[src] == page;
        assert r.response == Respond(page, req);
      }
    }
  }

  /** Two requests get different temporary modules unless their draws
      agree on every `x` and, modulo 4, on the `y` of the template. */
  lemma {:induction false} TempModulesCollideOnlyOnSameDigits(a: Outcomes, b: Outcomes)
    ensures TempPath(TmpName(a)) == TempPath(TmpName(b)) <==> Uuid.SameDigits(Uuid.Template, a.draws, b.draws, 0)
  {
    Uuid.UuidCollision(a.draws, b.draws);
    var pa, pb := TempPath(TmpName(a)), TempPath(TmpName(b));
    if pa == pb {
      assert pa[2..38] == TmpName(a);
      assert pb[2..38] == TmpName(b);
    }
  }
}

=== FILE: paths.dfy ===
/** Resolution of a request URL to the markup file served for it: the path
    part of the URL (everything before its first `?`) under the fixed web
    root, with `index.html` appended to a directory path. */
module Paths {

  /** The document root every source path starts with. */
  const Webroot: string := "./src"

  /** The implicit document served for a path that ends in `/`. */
  const IndexDocument: string := "index.html"

  /** `s.split("?")[0]`: the longest prefix of `s` that holds no `?`. */
  function PathPart(url: string): (p: string)
    ensures p <= url
    ensures '?' !in p
    ensures |p| == |url| || url[|p|] == '?'
  {
    if url == [] || url[0] == '?' then [] else [url[0]] + PathPart(url[1..])
  }

  /** JavaScript's `s.charAt(i)`: a one-character string, or the empty
      string when `i` is out of range (including `i == -1`). */
  function CharAt(s: string, i: int): (c: string)
    ensures |c| <= 1
    ensures 0 <= i < |s| ==> c == [s[i]]
    ensures !(0 <= i < |s|) ==> c == ""
  {
    if 0 <= i < |s| then [s[i]] else ""
  }

  /** A path names a directory when it is not empty and ends in `/`. */
  predicate NamesDirectory(p: string) {
    |p| > 0 && p[|p| - 1] == '/'
  }

  /** The file a request URL is served from. */
  function SourcePath(url: string): (r: string)
    ensures NamesDirectory(PathPart(url)) ==> r == Webroot + PathPart(url) + IndexDocument
    ensures !NamesDirectory(PathPart(url)) ==> r == Webroot + PathPart(url)
    ensures Webroot <= r
    ensures '?' !in r
  {
    var path := PathPart(url);
    Webroot + path + (if CharAt(path, |path| - 1) == "/" then IndexDocument else "")
  }

  /** Once a `?` has been seen, the rest of the URL no longer matters to
      its path part. */
  lemma {:induction false} PathPartStopsAtQuery(pre: string, url: string)
    requires pre <= url
    requires '?' in pre
    ensures PathPart(url) == PathPart(pre)
  {
    if pre[0] != '?' {
      assert pre[1..] <= url[1..];
      assert '?' in pre[1..] by {
        var k :| 0 <= k < |pre| && pre[k] == '?';
        assert pre[1..][k - 1] == '?';
      }
      PathPartStopsAtQuery(pre[1..], url[1..]);
    }
  }

  /** Two URLs that agree up to and including a `?` resolve to the same
      source path: the query string never selects a different file. */
  lemma SameSourceUpToQuery(pre: string, u1: string, u2: string)
    requires pre <= u1 && pre <= u2
    requires '?' in pre
    ensures SourcePath(u1) == SourcePath(u2)
  {
    PathPartStopsAtQuery(pre, u1);
    PathPartStopsAtQuery(pre, u2);
  }

  /** The path part of a URL without a query string is the whole URL, and
      a query string appended to it is dropped. */
  lemma {:induction false} PathPartOfQuery(path: string, query: string)
    requires '?' !in path
    ensures PathPart(path) == path
    ensures PathPart(path + "?" + query) == path
  {
    if path != [] {
      assert (path + "?" + query)[1..] == path[1..] + "?" + query;
      PathPartOfQuery(path[1..], query);
    }
  }

  /** A query string never changes the source path. */
  lemma QueryIgnored(path: string, query: string)
    requires '?' !in path
    ensures SourcePath(path + "?" + query) == SourcePath(path)
  {
    PathPartOfQuery(path, query);
  }

  /** The empty URL resolves to the web root itself: `charAt(-1)` is the
      empty string, so no index document is appended. */
  lemma EmptyUrlIsWebroot()
    ensures SourcePath("") == Webroot
  {
  }
}

=== FILE: uuid.dfy ===
/** The temporary-file name generator: a UUID-v4-shaped string built by
    replacing every `x` and `y` of a fixed template with a random hex digit.
    The random draws (`Math.random() * 16 | 0`, one per `x` or `y`) are an
    input sequence of nibbles. */
module Uuid {

  /** One random draw, `Math.random() * 16 | 0`. */
  type Nibble = n: int | 0 <= n < 16

  const Template: string := "xxxxxxxx-xxxx-4xxx-yxxx-xxxxxxxxxxxx"

  /** The digits `Number.prototype.toString(16)` writes. */
  const HexDigits: string := "0123456789abcdef"

  predicate IsLowerHex(c: char) {
    '0' <= c <= '9' || 'a' <= c <= 'f'
  }

  /** The digits `(r & 0x3 | 0x8).toString(16)` can write. */
  predicate IsVariantDigit(c: char) {
    c == '8' || c == '9' || c == 'a' || c == 'b'
  }

  /** `v.toString(16)` for a value below 16. */
  function ToHex(v: Nibble): (c: char)
    ensures IsLowerHex(c)
  {
    HexDigits[v]
  }

  lemma ToHexInjective(a: Nibble, b: Nibble)
    ensures ToHex(a) == ToHex(b) <==> a == b
  {
  }

  /** `r & 0x3 | 0x8`: the variant nibble keeps the low two bits of the
      draw and sets the high bit. */
  function VariantNibble(r: Nibble): (v: Nibble)
    ensures v == 8 + r % 4
  {
    (((r as bv8) & 0x3) | 0x8) as int
  }

  /** A replaced character of the template. */
  predicate IsSlot(c: char) {
    c == 'x' || c == 'y'
  }

  /** `t.replace(/[xy]/g, ...)`: each `x` or `y`, in order, takes the next
      draw of the stream `draws`, starting with draw number `next`. */
  function Fill(t: string, draws: nat -> Nibble, next: nat): (u: string)
    ensures |u| == |t|
  {
    if t == [] then []
    else if t[0] == 'x' then [ToHex(draws(next))] + Fill(t[1..], draws, next + 1)
    else if t[0] == 'y' then [ToHex(VariantNibble(draws(next)))] + Fill(t[1..], draws, next + 1)
    else [t[0]] + Fill(t[1..], draws, next)
  }

  /** Filling keeps every character other than `x` and `y`, writes a
      lowercase hex digit for each `x` and one of `8`, `9`, `a`, `b` for
      each `y`. */
  lemma {:induction false} FillAt(t: string, draws: nat -> Nibble, next: nat, i: nat)
    requires i < |t|
    ensures !IsSlot(t[i]) ==> Fill(t, draws, next)[i] == t[i]
    ensures t[i] == 'x' ==> IsLowerHex(Fill(t, draws, next)[i])
    ensures t[i] == 'y' ==> IsVariantDigit(Fill(t, draws, next)[i])
  {
    if i > 0 {
      FillAt(t[1..], draws, if IsSlot(t[0]) then next + 1 else next, i - 1);
    }
  }

  /** Two draw streams are indistinguishable through the template `t`
      (from draw number `next` on) when they agree on the draw of every
      `x` and agree modulo 4 on the draw of every `y`. */
  predicate SameDigits(t: string, a: nat -> Nibble, b: nat -> Nibble, next: nat) {
    if t == [] then true
    else if t[0] == 'x' then a(next) == b(next) && SameDigits(t[1..], a, b, next + 1)
    else if t[0] == 'y' then a(next) % 4 == b(next) % 4 && SameDigits(t[1..], a, b, next + 1)
    else SameDigits(t[1..], a, b, next)
  }

  /** Filling is injective up to the bits the variant nibble discards. */
  lemma {:induction false} FillCollision(t: string, a: nat -> Nibble, b: nat -> Nibble, next: nat)
    ensures Fill(t, a, next) == Fill(t, b, next) <==> SameDigits(t, a, b, next)
  {
    if t != [] {
      var fa, fb := Fill(t, a, next), Fill(t, b, next);
      if t[0] == 'x' {
        FillCollision(t[1..], a, b, next + 1);
        ToHexInjective(a(next), b(next));
        assert fa == [ToHex(a(next))] + Fill(t[1..], a, next + 1);
        assert fb == [ToHex(b(next))] + Fill(t[1..], b, next + 1);
        assert fa == fb ==> fa[0] == fb[0] && fa[1..] == fb[1..];
      } else if t[0] == 'y' {
        FillCollision(t[1..], a, b, next + 1);
        ToHexInjective(VariantNibble(a(next)), VariantNibble(b(next)));
        assert fa == [ToHex(VariantNibble(a(next)))] + Fill(t[1..], a, next + 1);
        assert fb == [ToHex(VariantNibble(b(next)))] + Fill(t[1..], b, next + 1);
        assert fa == fb ==> fa[0] == fb[0] && fa[1..] == fb[1..];
      } else {
        FillCollision(t[1..], a, b, next);
        assert fa == [t[0]] + Fill(t[1..], a, next);
        assert fb == [t[0]] + Fill(t[1..], b, next);
        assert fa == fb ==> fa[1..] == fb[1..];
      }
    }
  }

  lemma TemplateShape()
    ensures |Template| == 36
    ensures forall i :: 0 <= i < 36 ==> (Template[i] == '-' <==> i == 8 || i == 13 || i == 18 || i == 23)
    ensures Template[14] == '4' && Template[19] == 'y'
    ensures forall i :: 0 <= i < 36 && i != 8 && i != 13 && i != 18 && i != 23 && i != 14 ==> IsSlot(Template[i])
  {
  }

  lemma UuidAt(draws: nat -> Nibble, i: nat)
    requires i < 36
    ensures Fill(Template, draws, 0)[i] == '-' <==> i == 8 || i == 13 || i == 18 || i == 23
    ensures i == 14 ==> Fill(Template, draws, 0)[i] == '4'
    ensures i == 19 ==> IsVariantDigit(Fill(Template, draws, 0)[i])
    ensures i != 8 && i != 13 && i != 18 && i != 23 ==> IsLowerHex(Fill(Template, draws, 0)[i])
  {
    TemplateShape();
    FillAt(Template, draws, 0, i);
  }

  /** `uuidv4()`, given the stream of `Math.random` draws it makes. */
  function Uuidv4(draws: nat -> Nibble): (u: string)
    ensures |u| == |Template|
  {
    Fill(Template, draws, 0)
  }

  /** Every name `uuidv4()` makes has the UUID version 4 layout: 36
      characters, dashes at 8, 13, 18 and 23 and nowhere else, the version
      digit `4` at 14, a variant digit (`8`, `9`, `a` or `b`) at 19 and a
      lowercase hex digit everywhere else. */
  lemma UuidShape(draws: nat -> Nibble)
    ensures |Uuidv4(draws)| == 36
    ensures forall i :: 0 <= i < 36 ==> (Uuidv4(draws)[i] == '-' <==> i == 8 || i == 13 || i == 18 || i == 23)
    ensures Uuidv4(draws)[14] == '4'
    ensures IsVariantDigit(Uuidv4(draws)[19])
    ensures forall i :: 0 <= i < 36 && i != 8 && i != 13 && i != 18 && i != 23 ==> IsLowerHex(Uuidv4(draws)[i])
  {
    TemplateShape();
    forall i | 0 <= i < 36 {
      UuidAt(draws, i);
    }
  }

  /** Two `uuidv4()` calls give the same name exactly when their draws
      agree, except that only the low two bits of the draw for the `y`
      matter. */
  lemma UuidCollision(a: nat -> Nibble, b: nat -> Nibble)
    ensures Uuidv4(a) == Uuidv4(b) <==> SameDigits(Template, a, b, 0)
  {
    FillCollision(Template, a, b, 0);
  }
}

=== FILE: values.dfy ===
/** The JavaScript values that cross the boundary between the hook and a
    page's server script, and the `Redirect` class a script returns to ask
    for a redirect instead of a rendered page. */
module JsValues {

  /** A JavaScript value, as far as the hook looks at it. */
  datatype JsValue =
    | Undefined
    | Null
    | Bool(b: bool)
    | Number(n: int)
    | Str(s: string)
    | Object(fields: map<string, JsValue>)

  /** An instance of the exported `Redirect` class: its only field. */
  datatype Redirect = Redirect(url: string)

  /** `new Redirect(arg)`: the field starts as the empty string and takes
      the argument only when `typeof arg === "string"`. */
  function NewRedirect(arg: JsValue): (r: Redirect)
    ensures arg.Str? ==> r.url == arg.s
    ensures !arg.Str? ==> r.url == ""
  {
    match arg
    case Str(s) => Redirect(s)
    case _ => Redirect("")
  }

  /** Every redirect is the one built from its own URL. */
  lemma NewRedirectOfUrl(r: Redirect)
    ensures NewRedirect(Str(r.url)) == r
  {
  }

  /** What a page's script function returns: either an instance of
      `Redirect` (`data instanceof Redirect`) or any other value, which is
      handed to the template as its data. */
  datatype ScriptResult =
    | Redirected(target: Redirect)
    | Data(value: JsValue)

  /** The `{}` the script function of a page without a server script
      returns. */
  const EmptyObject: JsValue := Object(map[])
}
